=== FILE: README.md ===
# Chat-to-SQL pipeline, modelled in Dafny

The repository answers a shopper's question about the `productos` table in two
services, `handleChat` in Node.js (`src/chatHandler.js`) and
`handle_chat` in Python (`chat_handler.py`). Each request follows the same steps:
1. An empty message gets a fixed reply.
2. The model service is asked for SQL.
3. The answer goes through a fixed chain of five regex rewrites.
4. Only a statement that starts with `select` (any letter case) is run.
5. An execution error is reported.
6. An empty result triggers at most one "semantic retry": the model service is asked for a corrected query, which is lightly cleaned and run.
7. Non-empty rows are summarised by the model service.

The Dafny project models that core as pure functions.

- `Chars` (`chars.dfy`) holds the shared text primitives:
  - one fixed ASCII whitespace set;
  - ASCII case folding and the `select` prefix test;
  - stripping a maximal leading run and a maximal trailing run (`Strip`), characterised by `IsStripOf`;
  - `trim`/`strip`.
- `Sanitizer` (`sanitizer.dfy`) has one function per regex rewrite, in source order:
  - `StripFences` for `` /```sql|```/gi ``;
  - `TrimParens` for `^[\s(]+|[\s)]+$`;
  - `StripSemicolons` for `;+\s*$`;
  - `Collapse` for `\s+` → one space;
  - `Trim`.

  Their composition is `Clean`. `LightClean` is the shorter cleanup a retry candidate receives. Each step has a characterisation that does not follow its body, and lemmas connecting the two. For step 1 that characterisation is the regex's scan, stated as four lemmas: a character that starts no fence is kept and the scan moves on (even a backtick, as in `` `x``` ``), backtick-free text is kept, a case-insensitive `sql` fence is deleted whole, and a bare fence not followed by `sql` is deleted alone.
- `CleanupCases` (`cleanup_cases.dfy`) proves, on concrete inputs, the three things the cleanup does *not* guarantee:
  - it is not idempotent;
  - its output can end in `;`;
  - it removes a `)` that closes a real parenthesis.
- `Chat` (`chat.dfy`) holds what both handlers share:
  - prompts, reduced to the arguments they are built from;
  - execution results (`Rows` or `Failed`);
  - the collaborators as a `Services` value of two pure functions;
  - the fixed Spanish replies;
  - the retry candidate's acceptance test.
- `JsHandler` (`js_handler.dfy`) and `PyHandler` (`py_handler.dfy`) are the two handlers. Each returns a `Run`: the `{reply, data}` response plus the prompts sent and the statements executed, in order. The numbers of model calls and executions are their lengths.
  - The Python response's `data` is an `Option`, because its error replies carry no `data` key.
  - `PyHandler.CallGemini` is the answer normalisation of `call_gemini`.
- `Agreement` (`agreement.dfy`) proves what the two handlers have in common on every input, and exactly where they differ, when one model service answers both handlers' wordings of each prompt alike.

The model service's answer and the datastore are inputs. So are the HTTP requests, the Supabase `rpc("exec_sql")` call and their JSON. The model service is a function from prompt to `Option<string>`: the text at `candidates[0].content.parts[0].text`, or `None`. The datastore is a function from SQL text to `Rows(rows)` or `Failed(message)`. A `null` data from the datastore is the same as an empty list on every branch of both handlers, so it is not a separate case.

## Model

| member | source | states |
|---|---|---|
| `Chars.Strip` | src/chatHandler.js:36 | The result is a slice of the input whose prefix lies in the lead class and whose suffix lies in the trail class, and neither run can be extended. |
| `Chars.StripUnique` | src/chatHandler.js:36 | Any string with that shape equals `Strip`, so the regex's effect is pinned down independently of how it is computed. |
| `Chars.StartsWithSelect` | src/chatHandler.js:41 | The `select` test holds exactly when each of the first six characters is the lower- or upper-case letter of `select` (the same test as chat_handler.py:55 and, for the candidate, src/chatHandler.js:70 and chat_handler.py:75). |
| `Chars.Trim` | src/chatHandler.js:39 | `trim()` gives a slice with no outer whitespace that only removes whitespace. |
| `Chars.TrimKeepsTrimmed` | src/chatHandler.js:39 | Text without outer whitespace is returned unchanged. |
| `Chars.TrimIdempotent` | src/chatHandler.js:39 | Trimming twice equals trimming once. |
| `Sanitizer.StripFences` | src/chatHandler.js:35 | The fence removal never lengthens the text and leaves text without backticks unchanged. |
| `Sanitizer.StripFencesLeavesNoFence` | src/chatHandler.js:35 | After the global replacement, no three consecutive backticks remain anywhere. |
| `Sanitizer.StripFencesKeepsFenceFree` | src/chatHandler.js:35 | Text without a triple backtick passes through unchanged. |
| `Sanitizer.StripFencesIdempotent` | src/chatHandler.js:35 | Removing fences twice is the same as once. |
| `Sanitizer.StripFencesKeepsPlainPrefix` | src/chatHandler.js:71 | A backtick-free prefix (such as the `select` of an accepted candidate) survives fence removal untouched. |
| `Sanitizer.StripFencesStep` | src/chatHandler.js:35 | A first character that starts no fence (any character, a lone backtick included) is kept, and the scan continues with the rest. |
| `Sanitizer.StripFencesDropsSqlFence` | src/chatHandler.js:35 | After backtick-free text, three backticks followed by `sql` in any letter case are deleted together, and the scan resumes after them: the longer alternative wins. |
| `Sanitizer.StripFencesDropsBareFence` | src/chatHandler.js:35 | After backtick-free text, three backticks not followed by `sql` (in any letter case) are deleted alone, and the scan resumes right after them. |
| `Sanitizer.TrimParens` | src/chatHandler.js:36 | The result is the strip of leading whitespace/`(` and trailing whitespace/`)`; it neither starts with `(` or whitespace nor ends with `)` or whitespace, and it removes a `)` even when it closes a parenthesis. |
| `Sanitizer.StripSemicolons` | src/chatHandler.js:37 | The result is a prefix of the input. Nothing removed unless a `;`-run followed only by whitespace ends the input. When something is removed, it is exactly the leftmost such tail. |
| `Sanitizer.StripSemicolonsAt` | src/chatHandler.js:37 | If the leftmost `;`-then-whitespace tail starts at `p`, the result is the first `p` characters. |
| `Sanitizer.StripSemicolonsNone` | src/chatHandler.js:37 | Without such a tail, the text is unchanged. |
| `Sanitizer.StripSemicolonsNoSemicolon` | src/chatHandler.js:37 | Text without any `;` is unchanged. |
| `Sanitizer.Collapse` | src/chatHandler.js:38 | The result is no longer than the input. Its only whitespace is single spaces, never two adjacent. It starts and ends with whitespace exactly when the input does. |
| `Sanitizer.CollapseMatchesRef` | src/chatHandler.js:38 | The collapse equals a character-by-character reference that emits one space for each maximal whitespace run. |
| `Sanitizer.CollapseIdempotent` | src/chatHandler.js:38 | Collapsing twice is the same as once. |
| `Sanitizer.CollapseKeepsFenceFree` | src/chatHandler.js:38 | Collapsing whitespace cannot create a triple backtick. |
| `Sanitizer.Clean` | src/chatHandler.js:34-39 | The cleaned SQL is no longer than the answer. It has no leading or trailing whitespace, never starts with `(`, and contains only single spaces as whitespace (the same chain as chat_handler.py:50-53). |
| `Sanitizer.CleanRemovesFences` | src/chatHandler.js:34-39 | The cleaned SQL contains no triple backtick. |
| `Sanitizer.LightClean` | src/chatHandler.js:71 | The candidate's cleanup gives text without outer whitespace, no longer than the candidate (the same as chat_handler.py:76-77). |
| `Sanitizer.LightCleanKeepsSelect` | src/chatHandler.js:70-71 | A candidate that passed the `select` test still starts with `select` after fences and the trailing `;`-run are removed. |
| `CleanupCases.CleanIsNotIdempotent` | src/chatHandler.js:36-37 | `(SELECT 1);` cleans to `SELECT 1)`, and cleaning that again gives `SELECT 1`. |
| `CleanupCases.CleanCanEndInSemicolon` | src/chatHandler.js:37-39 | `SELECT x; ;` cleans to `SELECT x;`: only the last `;`-run is removed, once. |
| `CleanupCases.CleanCutsClosingParen` | src/chatHandler.js:36 | `... IN (1,2)` cleans to `... IN (1,2`. |
| `CleanupCases.CleanStripsFenceAndSemicolon` | src/chatHandler.js:34-39 | A fenced answer with a trailing `;` cleans to the bare statement. |
| `CleanupCases.SqlFencedBody` | src/chatHandler.js:35 | A backtick-free statement between a `sql` fence and a closing fence loses both. |
| `CleanupCases.BareFencedBody` | src/chatHandler.js:35 | A backtick-free statement between two bare fences loses both fences, unless it begins with `sql` in any letter case, which would make the opening fence a `sql` fence. |
| `CleanupCases.LoneBacktickKept` | src/chatHandler.js:35 | `` `x``` `` becomes `` `x ``: a backtick that starts no fence is kept, and only the later fence is deleted. |
| `CleanupCases.BareFencedSelect` | src/chatHandler.js:35 | ```` ```SELECT 1``` ```` loses both fences: a body starting with `SELECT` is not read as a `sql` fence. |
| `CleanupCases.CleanStripsBareFence` | src/chatHandler.js:34-39 | The bare-fenced answer ```` ```\nSELECT 1\n``` ```` cleans to `SELECT 1`. |
| `Chat.AcceptsCandidate` | src/chatHandler.js:70 | A retry candidate is accepted exactly when it is present and starts with `select`; the truthiness test is implied by that, and an accepted candidate has at least six characters and is not `NO CAMBIO` (the same test as chat_handler.py:75). |
| `Chat.FencedCandidateRejected` | src/chatHandler.js:70 | A retry candidate that opens with a fence fails the acceptance test, because the test runs before fence removal. |
| `JsHandler.ModelText` | src/chatHandler.js:29 | `?.text?.trim()`: the text is absent exactly when the answer is, and otherwise is the answer with its outer whitespace removed (also at src/chatHandler.js:68). |
| `JsHandler.SummaryReply` | src/chatHandler.js:102-103 | The reply is never empty, and it is either `No pude generar un resumen.` or the model's text verbatim, without trimming. |
| `JsHandler.Summarize` | src/chatHandler.js:84-105 | The summary prompt carries the final rows, query and message. The reply is the raw summary text when truthy, else `No pude generar un resumen.`. The data are exactly the summarised rows. |
| `JsHandler.RunCandidate` | src/chatHandler.js:72-80 | The accepted candidate is executed after the first query. Non-empty rows are returned as the data and summarised with the candidate as the final query. A failure or an empty result gives `No se encontraron resultados.` with no data and no summary. |
| `JsHandler.Retry` | src/chatHandler.js:49-82 | Entered only when the first statement returned no rows. Prompts are the SQL prompt, then the retry prompt carrying the first query. The candidate is executed after the light cleanup exactly when it is truthy, differs from `NO CAMBIO` and starts with `select`, and it still starts with `select` then. A rejected, failing or empty retry gives `No se encontraron resultados.` with no data and no summary. When the accepted candidate returns rows, they are returned and summarised. |
| `JsHandler.Execute` | src/chatHandler.js:44-82 | An execution error gives `Error al ejecutar SQL: ` + message with no data, no retry and no summary. The retry prompt is sent exactly when the result is empty. Non-empty rows are returned as the data and summarised after one execution. |
| `JsHandler.Gate` | src/chatHandler.js:41-46 | The datastore runs the statement exactly when it starts with `select`. Otherwise the reply is `Solo se permiten consultas SELECT en esta demo.` with no data and no execution. |
| `JsHandler.FromSqlAnswer` | src/chatHandler.js:31-46 | A falsy trimmed answer gives `No pude generar la consulta SQL.` with no execution. Cleaned SQL failing the `select` test gives `Solo se permiten consultas SELECT en esta demo.`. Otherwise exactly the cleaned SQL is executed. |
| `JsHandler.HandleChat` | src/chatHandler.js:6-106 | An empty message gives `Envía un mensaje.` with no model call and no execution. At most 3 model calls and 2 executions. The datastore only sees statements starting with `select`, the first being the cleaned first answer. Without data the reply is a fixed text or the execution error. With data, they are the rows of the last statement executed and the reply is that summary's text or the fallback. Conversely, when the last statement executed returned rows, they are returned. |
| `PyHandler.CallGemini` | chat_handler.py:30-31 | `None` exactly when the text is absent or empty; otherwise the strip of the text, which is empty when the text is all whitespace. |
| `PyHandler.CallGeminiEmptyOnBlank` | chat_handler.py:31 | A present, non-empty text normalises to `""` exactly when it is all whitespace. |
| `PyHandler.SummaryReply` | chat_handler.py:97-98 | The reply is never empty and has no outer whitespace; it is either `No pude generar un resumen.` or the model's text after `strip()`. |
| `PyHandler.Summarize` | chat_handler.py:90-99 | The reply is the stripped summary when non-empty, else the fallback. `data` is present and holds the summarised rows. |
| `PyHandler.RunCandidate` | chat_handler.py:78-86 | The accepted candidate is executed. Its rows, when non-empty, are returned as `data` and summarised with it as the final query. An exception or empty data give `No se encontraron resultados.` without `data`. |
| `PyHandler.Retry` | chat_handler.py:66-88 | Entered only when the first statement returned no rows. The same retry rules as Node.js; rows from an accepted candidate are returned and summarised. Rejection, a caught exception or empty retry data give `No se encontraron resultados.` without a `data` key. |
| `PyHandler.Execute` | chat_handler.py:58-99 | An exception gives the error reply without `data` and with no retry. Empty data trigger the retry. Non-empty rows are returned as `data` and summarised after one execution. |
| `PyHandler.Gate` | chat_handler.py:55-62 | SQL whose lower-cased form starts with `select` is executed; anything else gets `Solo se permiten consultas SELECT en esta demo.` without `data` and without execution. |
| `PyHandler.FromSqlAnswer` | chat_handler.py:46-62 | A falsy answer gives `No pude generar la consulta SQL.` and the SELECT gate gives `Solo se permiten consultas SELECT en esta demo.`, both without `data`. Only gated SQL is executed. |
| `PyHandler.HandleChat` | chat_handler.py:33-99 | The same guarantees as the Node.js handler, with `data` absent on every reply but the summary, and present whenever the last statement executed returned rows. The empty message gives `Envía un mensaje.` with no call at all. |
| `Agreement.AnswersAgree` | chat_handler.py:30-31 | `call_gemini` and the Node.js `?.text?.trim()` accept the same answers and yield the same text for them. |
| `Agreement.SummaryRepliesAgree` | chat_handler.py:97-98 | The Python and Node.js summary replies are equal exactly when the summary text is absent, empty or already trimmed. |
| `Agreement.RetryAgrees` | chat_handler.py:66-88 | The two retry branches make the same calls and give corresponding responses. |
| `Agreement.ExecuteAgrees` | chat_handler.py:58-99 | The two execution branches make the same calls and give corresponding responses. |
| `Agreement.HandlersAgree` | chat_handler.py:33-99 | For every message and collaborators that answer both handlers' wordings alike, both handlers send the same abstract prompts (the same kind, built from the same arguments) and execute the same statements. Python `data` is present exactly when the Node.js `data` is non-empty, and then they are equal. The replies are equal unless the request ended in a summary whose text has outer whitespace. |

The cleaned SQL can end in `;`, as `CleanupCases.CleanCanEndInSemicolon` shows, because only the last `;`-run is removed, and only once. A reading of the cleanup as "the result never ends in `;`" is therefore not what the code does, and the model follows the code.

## Left out

- The Express and FastAPI servers, CORS, static files and environment configuration: plumbing around the handlers.
- The HTTP requests, the 30-second `httpx` timeout (chat_handler.py:27), JSON parsing and `async`/`await`: the collaborators' answers are inputs.
- The wording of the three prompts and the JSON rendering of rows: a prompt is identified by the arguments it is built from.
- Unicode whitespace and case: `\s`, `trim`, `strip` and `.lower()` are modelled over ASCII whitespace (space, tab, line feed, vertical tab, form feed, carriage return) and ASCII letters. Python's extra `\s` characters (`\x1c`–`\x1f`) and JavaScript's non-ASCII spaces are not modelled.
- Python's `IndexError` when `candidates` or `parts` is an empty list: such an answer is modelled as absent.
- The difference between JavaScript's `error.message` and Python's `str(e)`: both are the datastore's error text.
- A JavaScript `message` that is not a string: a falsy message is the empty string.
- Agreement.HandlersAgree: the two handlers word their prompts differently — the SQL prompt lists the values of `genero` only in src/chatHandler.js:13, the retry prompts differ (src/chatHandler.js:51-55 against chat_handler.py:69-72), and rows are rendered by `JSON.stringify` (src/chatHandler.js:87) against `json.dumps` (chat_handler.py:93), which adds spaces and escapes non-ASCII letters. The lemma relates the handlers only under one answer function over abstract prompts, that is, assuming the model service answers both wordings of a prompt alike; it says nothing about a model that answers them differently.
- A datastore that changes between calls, or fails only sometimes: `exec` is one function of the SQL text, so a retry candidate that cleans to the first statement's text gets the same empty result again. No contract relies on this.
- Exceptions from the model service itself (network errors), which neither handler catches.

=== FILE: agreement.dfy ===
/** How the Node.js and Python handlers relate on the same message and the
    same collaborator answers. The two handlers word their prompts and render
    their rows differently; a prompt here is the abstract `Prompt` built from
    the same arguments, and one answer function serves both, so the lemmas
    assume the model service answers both wordings alike. Under that
    assumption they send the same abstract prompts and execute the same
    statements; `data` is absent in Python exactly where the Node.js reply
    carries an empty list; and the replies differ only when the run ends in a
    summary whose text has outer whitespace, which Python strips and Node.js
    keeps. */
module Agreement {
  import opened Wrappers
  import opened Chars
  import opened Sanitizer
  import opened Chat
  import JsHandler
  import PyHandler

  /** A non-empty model text that `trim`/`strip` would change. */
  predicate Untrimmed(raw: Option<string>) {
    raw.Some? && |raw.value| > 0 && Trim(raw.value) != raw.value
  }

  /** Both answer normalisations accept the same answers and yield the same text. */
  lemma AnswersAgree(raw: Option<string>)
    ensures Truthy(JsHandler.ModelText(raw)) <==> Truthy(PyHandler.CallGemini(raw))
    ensures Truthy(JsHandler.ModelText(raw)) ==> JsHandler.ModelText(raw) == PyHandler.CallGemini(raw)
  {
  }

  /** The two summary replies coincide exactly when the text needs no trimming. */
  lemma SummaryRepliesAgree(raw: Option<string>)
    ensures JsHandler.SummaryReply(raw) == PyHandler.SummaryReply(raw) <==> !Untrimmed(raw)
  {
    if raw.Some? && |raw.value| > 0 {
      var t := raw.value;
      assert JsHandler.SummaryReply(raw) == t;
      assert PyHandler.CallGemini(raw) == Some(Trim(t));
      if |Trim(t)| == 0 {
        NoSummaryIsTrimmed();
      }
    }
  }

  /** The fallback text has no outer whitespace, so no blank summary equals it. */
  lemma NoSummaryIsTrimmed()
    ensures |NoSummary| > 0 && |Trim(NoSummary)| > 0
  {
    TrimKeepsTrimmed(NoSummary);
  }

  /** The correspondence between a Node.js run and a Python run. */
  predicate Corresponds(js: JsHandler.Run, py: PyHandler.Run, svc: Services) {
    && py.prompts == js.prompts
    && py.executed == js.executed
    && py.response.data == (if js.response.data == [] then None else Some(js.response.data))
    && (js.response.data == [] ==> py.response.reply == js.response.reply)
    && (js.response.data != [] ==>
         |js.prompts| > 0 &&
         js.response.reply == JsHandler.SummaryReply(svc.answer(Last(js.prompts))) &&
         py.response.reply == PyHandler.SummaryReply(svc.answer(Last(js.prompts))))
  }

  lemma SummarizeAgrees(message: string, sql: string, rows: seq<Row>, svc: Services,
                        prompts: seq<Prompt>, executed: seq<string>)
    requires |rows| > 0
    ensures Corresponds(JsHandler.Summarize(message, sql, rows, svc, prompts, executed),
                        PyHandler.Summarize(message, sql, rows, svc, prompts, executed), svc)
  {
    var js := JsHandler.Summarize(message, sql, rows, svc, prompts, executed);
    assert Last(js.prompts) == SummaryPrompt(rows, sql, message);
  }

  lemma RetryAgrees(message: string, sql: string, svc: Services)
    requires svc.exec(sql) == Rows([])
    ensures Corresponds(JsHandler.Retry(message, sql, svc), PyHandler.Retry(message, sql, svc), svc)
  {
    AnswersAgree(svc.answer(RetryPrompt(sql)));
    var c := JsHandler.Candidate(sql, svc);
    if AcceptsCandidate(c) {
      var retrySql := LightClean(c.value);
      match svc.exec(retrySql)
      case Rows(retryData) =>
        if |retryData| > 0 {
          SummarizeAgrees(message, retrySql, retryData, svc,
                          [SqlPrompt(message), RetryPrompt(sql)], [sql, retrySql]);
        }
      case Failed(_) =>
    }
  }

  lemma ExecuteAgrees(message: string, sql: string, svc: Services)
    ensures Corresponds(JsHandler.Execute(message, sql, svc), PyHandler.Execute(message, sql, svc), svc)
  {
    match svc.exec(sql)
    case Failed(_) =>
    case Rows(data) =>
      if |data| > 0 {
        SummarizeAgrees(message, sql, data, svc, [SqlPrompt(message)], [sql]);
      } else {
        RetryAgrees(message, sql, svc);
      }
  }

  lemma FromSqlAnswerAgrees(message: string, raw: Option<string>, svc: Services)
    ensures Corresponds(JsHandler.FromSqlAnswer(message, JsHandler.ModelText(raw), svc),
                        PyHandler.FromSqlAnswer(message, PyHandler.CallGemini(raw), svc), svc)
  {
    AnswersAgree(raw);
    if Truthy(JsHandler.ModelText(raw)) {
      ExecuteAgrees(message, Clean(JsHandler.ModelText(raw).value), svc);
    }
  }

  /** The two handlers agree on every message and every pair of collaborators:
      the same abstract prompts and statements, data present in Python exactly when non-empty in
      Node.js, and equal replies unless a summary text with outer whitespace
      was returned. */
  lemma HandlersAgree(message: string, svc: Services)
    ensures PyHandler.HandleChat(message, svc).prompts == JsHandler.HandleChat(message, svc).prompts
    ensures PyHandler.HandleChat(message, svc).executed == JsHandler.HandleChat(message, svc).executed
    ensures PyHandler.HandleChat(message, svc).response.data ==
      (if JsHandler.HandleChat(message, svc).response.data == [] then None
       else Some(JsHandler.HandleChat(message, svc).response.data))
    ensures PyHandler.HandleChat(message, svc).response.reply == JsHandler.HandleChat(message, svc).response.reply
      <==> !(JsHandler.HandleChat(message, svc).response.data != [] &&
             Untrimmed(svc.answer(Last(JsHandler.HandleChat(message, svc).prompts))))
  {
    var js := JsHandler.HandleChat(message, svc);
    if |message| > 0 {
      FromSqlAnswerAgrees(message, svc.answer(SqlPrompt(message)), svc);
    }
    if js.response.data != [] {
      SummaryRepliesAgree(svc.answer(Last(js.prompts)));
    }
  }
}

=== FILE: chars.dfy ===
/** Character classes, ASCII case folding and trimming, shared by the SQL
    cleanup and by the normalisation of model answers.

    Whitespace is one fixed ASCII set -- space, tab, line feed, vertical tab,
    form feed and carriage return -- standing for regex `\s`, JavaScript
    `trim` and Python `strip` alike. */
module Chars {

  predicate IsSpace(c: char) {
    c == ' ' || ('\t' <= c <= '\r')
  }

  /** The character classes the cleanup expressions are built from. */
  datatype CharClass = Space | SpaceOrOpen | SpaceOrClose | Semicolon

  predicate InClass(c: char, k: CharClass) {
    match k
    case Space => IsSpace(c)
    case SpaceOrOpen => IsSpace(c) || c == '('
    case SpaceOrClose => IsSpace(c) || c == ')'
    case Semicolon => c == ';'
  }

  predicate AllIn(s: string, k: CharClass) {
    forall i :: 0 <= i < |s| ==> InClass(s[i], k)
  }

  /** Length of the longest prefix of `s` drawn from class `k`. */
  function LeadLen(s: string, k: CharClass): (n: nat)
    ensures n <= |s|
    ensures AllIn(s[..n], k)
    ensures n == |s| || !InClass(s[n], k)
  {
    if |s| > 0 && InClass(s[0], k) then
      var m := LeadLen(s[1..], k);
      assert s[..1 + m] == [s[0]] + s[1..][..m];
      1 + m
    else
      0
  }

  /** Start of the longest suffix of `s` drawn from class `k`. */
  function TrailStart(s: string, k: CharClass): (n: nat)
    ensures n <= |s|
    ensures AllIn(s[n..], k)
    ensures n == 0 || !InClass(s[n - 1], k)
  {
    if |s| > 0 && InClass(s[|s| - 1], k) then
      var m := TrailStart(s[..|s| - 1], k);
      assert s[m..] == s[..|s| - 1][m..] + [s[|s| - 1]];
      m
    else
      |s|
  }

  /** `r` is `s` with a run of `lead` characters cut from the front and a run
      of `trail` characters cut from the back, neither run extendable. */
  ghost predicate IsStripOf(s: string, r: string, lead: CharClass, trail: CharClass) {
    exists i, j :: 0 <= i <= j <= |s| && r == s[i..j]
      && AllIn(s[..i], lead) && AllIn(s[j..], trail)
      && (|r| == 0 || (!InClass(r[0], lead) && !InClass(r[|r| - 1], trail)))
  }

  /** Removes the whole leading `lead` run, then the whole trailing `trail` run of what is left. */
  function Strip(s: string, lead: CharClass, trail: CharClass): (r: string)
    ensures IsStripOf(s, r, lead, trail)
    ensures |r| <= |s|
  {
    var i := LeadLen(s, lead);
    var m := TrailStart(s[i..], trail);
    assert s[i..][m..] == s[i + m..];
    assert s[i..][..m] == s[i..i + m];
    s[i..i + m]
  }

  /** A maximal leading run is determined by where it stops. */
  lemma LeadLenIs(s: string, k: CharClass, i: nat)
    requires i <= |s| && AllIn(s[..i], k)
    requires i == |s| || !InClass(s[i], k)
    ensures LeadLen(s, k) == i
  {
  }

  /** A maximal trailing run is determined by where it starts. */
  lemma TrailStartIs(s: string, k: CharClass, j: nat)
    requires j <= |s| && AllIn(s[j..], k)
    requires j == 0 || !InClass(s[j - 1], k)
    ensures TrailStart(s, k) == j
  {
  }

  /** Cutting at `i` and `j` where both runs stop gives the strip. */
  lemma StripAt(s: string, i: nat, j: nat, lead: CharClass, trail: CharClass)
    requires i < j <= |s|
    requires AllIn(s[..i], lead) && !InClass(s[i], lead)
    requires AllIn(s[j..], trail) && !InClass(s[j - 1], trail)
    ensures Strip(s, lead, trail) == s[i..j]
  {
    LeadLenIs(s, lead, i);
    assert s[i..][j - i..] == s[j..];
    TrailStartIs(s[i..], trail, j - i);
  }

  /** When a `lead` run meets a `trail` run, the strip is empty. */
  lemma StripEmpty(s: string, i: nat, lead: CharClass, trail: CharClass)
    requires i <= |s|
    requires AllIn(s[..i], lead) && AllIn(s[i..], trail)
    ensures Strip(s, lead, trail) == []
  {
    var n := LeadLen(s, lead);
    assert n >= i;
    assert AllIn(s[n..], trail) by {
      forall x | 0 <= x < |s[n..]|
        ensures InClass(s[n..][x], trail)
      {
        assert s[n..][x] == s[i..][n + x - i];
      }
    }
    TrailStartIs(s[n..], trail, 0);
  }

  /** The strip is the only string with the shape `IsStripOf` describes. */
  lemma StripUnique(s: string, r: string, lead: CharClass, trail: CharClass)
    requires IsStripOf(s, r, lead, trail)
    ensures r == Strip(s, lead, trail)
  {
    var i, j :| 0 <= i <= j <= |s| && r == s[i..j]
      && AllIn(s[..i], lead) && AllIn(s[j..], trail)
      && (|r| == 0 || (!InClass(r[0], lead) && !InClass(r[|r| - 1], trail)));
    if i < j {
      StripAt(s, i, j, lead, trail);
    } else {
      StripEmpty(s, i, lead, trail);
    }
  }

  /** JavaScript `trim` / Python `strip` over the whitespace set. */
  function Trim(s: string): (r: string)
    ensures IsStripOf(s, r, Space, Space)
    ensures |r| > 0 ==> !IsSpace(r[0]) && !IsSpace(r[|r| - 1])
  {
    Strip(s, Space, Space)
  }

  /** Text without outer whitespace passes through `trim` unchanged. */
  lemma TrimKeepsTrimmed(s: string)
    requires |s| > 0 ==> !IsSpace(s[0]) && !IsSpace(s[|s| - 1])
    ensures Trim(s) == s
  {
    assert s[..0] == [] && s[|s|..] == [] && s == s[0..|s|];
    assert IsStripOf(s, s, Space, Space);
    StripUnique(s, s, Space, Space);
  }

  /** Trimming twice is trimming once. */
  lemma TrimIdempotent(s: string)
    ensures Trim(Trim(s)) == Trim(s)
  {
    TrimKeepsTrimmed(Trim(s));
  }

  function LowerChar(c: char): char {
    if 'A' <= c <= 'Z' then (c as int + 32) as char else c
  }

  /** ASCII lower-casing, the model of `/i` matching and Python `lower()`. */
  function Lower(s: string): string {
    seq(|s|, i requires 0 <= i < |s| => LowerChar(s[i]))
  }

  /** `/^select/i.test(s)` and `s.lower().startswith("select")`: each of
      the first six characters is the lower- or upper-case letter of `select`. */
  predicate StartsWithSelect(s: string): (b: bool)
    ensures b <==> |s| >= 6 && forall i :: 0 <= i < 6 ==> s[i] == "select"[i] || s[i] == "SELECT"[i]
  {
    |s| >= 6 && Lower(s[..6]) == "select"
  }
}

=== FILE: chat.dfy ===
/** What the two chat handlers share: the rows and prompts they exchange with
    their collaborators, the collaborators themselves as pure functions, and
    the fixed reply texts. */
module Chat {
  import opened Wrappers
  import opened Chars
  import opened Sanitizer

  /** One result row: column name to rendered value. */
  type Row = map<string, string>

  /** The three prompts, reduced to what each is built from; the wording
      around those arguments is fixed text and is not modelled. */
  datatype Prompt =
    | SqlPrompt(message: string)
    | RetryPrompt(sql: string)
    | SummaryPrompt(rows: seq<Row>, sql: string, message: string)

  /** What the `exec_sql` procedure reports for one statement. A null
      `data` is the same as no rows for every branch of both handlers. */
  datatype ExecResult = Rows(rows: seq<Row>) | Failed(message: string)

  /** The model service and the datastore. `answer` yields the text found at
      `candidates[0].content.parts[0].text`, or None when any level of that
      path is missing. */
  datatype Services = Services(answer: Prompt -> Option<string>, exec: string -> ExecResult)

  const SendMessage: string := "Envía un mensaje."
  const NoSql: string := "No pude generar la consulta SQL."
  const OnlySelect: string := "Solo se permiten consultas SELECT en esta demo."
  const ExecErrorPrefix: string := "Error al ejecutar SQL: "
  const NoResults: string := "No se encontraron resultados."
  const NoSummary: string := "No pude generar un resumen."

  /** The sentinel the retry prompt asks for when no correction applies. */
  const NoChange: string := "NO CAMBIO"

  /** A string is truthy in both languages exactly when it is present and non-empty. */
  predicate Truthy(t: Option<string>) {
    t.Some? && |t.value| > 0
  }

  /** The test a (trimmed) retry candidate must pass before it is executed;
      it runs before the candidate's fences are removed. */
  predicate AcceptsCandidate(t: Option<string>): (b: bool)
    // The truthiness test is implied by the `select` test; the sentinel is
    // rejected for its own sake although it already fails that test.
    ensures b <==> t.Some? && StartsWithSelect(t.value)
    ensures b ==> |t.value| >= 6 && t.value != NoChange
  {
    assert NoChange[0] == 'N';
    Truthy(t) && t.value != NoChange && StartsWithSelect(t.value)
  }

  /** The acceptance test runs before the fences are removed, so a candidate
      that opens with a fence is rejected even when a SELECT follows it. */
  lemma FencedCandidateRejected(t: Option<string>)
    requires t.Some? && AtFence(t.value)
    ensures !AcceptsCandidate(t)
  {
    if |t.value| >= 6 {
      assert Lower(t.value[..6])[0] == LowerChar('`');
    }
  }

  /** The final element: the latest prompt sent or statement executed. */
  function Last<T>(s: seq<T>): T
    requires |s| > 0
  {
    s[|s| - 1]
  }

  /** The replies that carry no data besides the execution error. */
  predicate IsFixedReply(reply: string) {
    reply == SendMessage || reply == NoSql || reply == OnlySelect || reply == NoResults
  }
}

=== FILE: cleanup_cases.dfy ===
/** Worked inputs for the SQL cleanup, showing what it does and, as importantly,
    what it does not promise: it is not idempotent, its output can still end in
    `;`, and it cuts a `)` that closes a real parenthesis. Each case is proved
    one step at a time through the characterisation lemmas of the five steps. */
module CleanupCases {
  import opened Chars
  import opened Sanitizer

  // The last three steps of every case that reaches "SELECT 1".
  lemma Select1StripSemicolons()
    ensures StripSemicolons("SELECT 1") == "SELECT 1"
  {
    var t := "SELECT 1";
    assert forall i :: 0 <= i < |t| ==> t[i] != ';';
    StripSemicolonsNoSemicolon(t);
  }

  lemma Select1Collapse()
    ensures Collapse("SELECT 1") == "SELECT 1"
  {
    CollapseKeepsSingleSpaced("SELECT 1");
  }

  lemma Select1Trim()
    ensures Trim("SELECT 1") == "SELECT 1"
  {
    TrimKeepsTrimmed("SELECT 1");
  }

  // Steps 1-5 of "(SELECT 1);".
  lemma ParenStripFences()
    ensures StripFences("(SELECT 1);") == "(SELECT 1);"
  {
    var s := "(SELECT 1);";
    assert NoBacktick(s) by {
      forall i | 0 <= i < |s|
        ensures s[i] != '`'
      {
      }
    }
    StripFencesKeepsFenceFree(s);
  }

  lemma ParenTrimParens()
    ensures TrimParens("(SELECT 1);") == "SELECT 1);"
  {
    StripAt("(SELECT 1);", 1, 11, SpaceOrOpen, SpaceOrClose);
  }

  lemma ParenStripSemicolons()
    ensures StripSemicolons("SELECT 1);") == "SELECT 1)"
  {
    StripSemicolonsAt("SELECT 1);", 9);
  }

  lemma ParenCollapse()
    ensures Collapse("SELECT 1)") == "SELECT 1)"
  {
    CollapseKeepsSingleSpaced("SELECT 1)");
  }

  lemma ParenTrim()
    ensures Trim("SELECT 1)") == "SELECT 1)"
  {
    TrimKeepsTrimmed("SELECT 1)");
  }

  // Steps 1-2 of "SELECT 1)".
  lemma AgainStripFences()
    ensures StripFences("SELECT 1)") == "SELECT 1)"
  {
    var s := "SELECT 1)";
    assert NoBacktick(s) by {
      forall i | 0 <= i < |s|
        ensures s[i] != '`'
      {
      }
    }
    StripFencesKeepsFenceFree(s);
  }

  lemma AgainTrimParens()
    ensures TrimParens("SELECT 1)") == "SELECT 1"
  {
    StripAt("SELECT 1)", 0, 8, SpaceOrOpen, SpaceOrClose);
  }

  /** `(SELECT 1);` loses its `(` and `;` but keeps the `)`, which only a
      second pass removes: the cleanup is not idempotent. */
  lemma CleanIsNotIdempotent()
    ensures Clean("(SELECT 1);") == "SELECT 1)"
    ensures Clean(Clean("(SELECT 1);")) == "SELECT 1"
  {
    ParenClean();
    AgainClean();
  }

  lemma ParenClean()
    ensures Clean("(SELECT 1);") == "SELECT 1)"
  {
    ParenStripFences(); ParenTrimParens(); ParenStripSemicolons(); ParenCollapse(); ParenTrim();
  }

  lemma AgainClean()
    ensures Clean("SELECT 1)") == "SELECT 1"
  {
    AgainStripFences(); AgainTrimParens(); Select1StripSemicolons(); Select1Collapse(); Select1Trim();
  }

  // Steps 1-5 of "SELECT x; ;".
  lemma SemiStripFences()
    ensures StripFences("SELECT x; ;") == "SELECT x; ;"
  {
    var s := "SELECT x; ;";
    assert NoBacktick(s) by {
      forall i | 0 <= i < |s|
        ensures s[i] != '`'
      {
      }
    }
    StripFencesKeepsFenceFree(s);
  }

  lemma SemiTrimParens()
    ensures TrimParens("SELECT x; ;") == "SELECT x; ;"
  {
    StripAt("SELECT x; ;", 0, 11, SpaceOrOpen, SpaceOrClose);
    assert "SELECT x; ;"[0..11] == "SELECT x; ;";
  }

  lemma SemiStripSemicolons()
    ensures StripSemicolons("SELECT x; ;") == "SELECT x; "
  {
    var s := "SELECT x; ;";
    forall q | 0 <= q < 10
      ensures !IsSemiTail(s[q..])
    {
      if q == 8 {
        assert s[q..][1] == ' ' && s[q..][2] == ';';
      } else {
        assert s[q..][0] == s[q];
      }
    }
    StripSemicolonsAt(s, 10);
  }

  lemma SemiCollapse()
    ensures Collapse("SELECT x; ") == "SELECT x; "
  {
    CollapseKeepsSingleSpaced("SELECT x; ");
  }

  lemma SemiTrim()
    ensures Trim("SELECT x; ") == "SELECT x;"
  {
    StripAt("SELECT x; ", 0, 9, Space, Space);
  }

  /** Only the last `;` run before the trailing whitespace is cut, so the
      cleaned text can still end in `;`. */
  lemma CleanCanEndInSemicolon()
    ensures Clean("SELECT x; ;") == "SELECT x;"
  {
    SemiStripFences(); SemiTrimParens(); SemiStripSemicolons(); SemiCollapse(); SemiTrim();
  }

  // Steps 1-5 of "SELECT * FROM t WHERE id IN (1,2)".
  lemma CloseStripFences()
    ensures StripFences("SELECT * FROM t WHERE id IN (1,2)") == "SELECT * FROM t WHERE id IN (1,2)"
  {
    var s := "SELECT * FROM t WHERE id IN (1,2)";
    assert NoBacktick(s) by {
      forall i | 0 <= i < |s|
        ensures s[i] != '`'
      {
      }
    }
    StripFencesKeepsFenceFree(s);
  }

  lemma CloseTrimParens()
    ensures TrimParens("SELECT * FROM t WHERE id IN (1,2)") == "SELECT * FROM t WHERE id IN (1,2"
  {
    var s := "SELECT * FROM t WHERE id IN (1,2)";
    StripAt(s, 0, |s| - 1, SpaceOrOpen, SpaceOrClose);
    assert s[0..|s| - 1] == "SELECT * FROM t WHERE id IN (1,2";
  }

  lemma CloseStripSemicolons()
    ensures StripSemicolons("SELECT * FROM t WHERE id IN (1,2") == "SELECT * FROM t WHERE id IN (1,2"
  {
    StripSemicolonsNoSemicolon("SELECT * FROM t WHERE id IN (1,2");
  }

  lemma CloseCollapse()
    ensures Collapse("SELECT * FROM t WHERE id IN (1,2") == "SELECT * FROM t WHERE id IN (1,2"
  {
    var t := "SELECT * FROM t WHERE id IN (1,2";
    assert forall i :: 0 <= i < |t| ==> t[i] == ' ' || !IsSpace(t[i]);
    assert forall i :: 0 <= i < |t| - 1 ==> t[i] != ' ' || t[i + 1] != ' ';
    CollapseKeepsSingleSpaced(t);
  }

  lemma CloseTrim()
    ensures Trim("SELECT * FROM t WHERE id IN (1,2") == "SELECT * FROM t WHERE id IN (1,2"
  {
    TrimKeepsTrimmed("SELECT * FROM t WHERE id IN (1,2");
  }

  /** The trailing-parenthesis step also eats a `)` that closes a real
      parenthesis in the query. */
  lemma CleanCutsClosingParen()
    ensures Clean("SELECT * FROM t WHERE id IN (1,2)") == "SELECT * FROM t WHERE id IN (1,2"
  {
    CloseStripFences(); CloseTrimParens(); CloseStripSemicolons(); CloseCollapse(); CloseTrim();
  }

  // Steps 1-3 of "```sql\nSELECT 1;\n```".
  /** A statement wrapped in a `sql` fence and a closing fence loses both. */
  lemma SqlFencedBody(u: string)
    requires NoBacktick(u)
    ensures StripFences("```sql" + u + "```") == u
  {
    assert Lower("sql") == "sql";
    StripFencesDropsSqlFence("", "sql", u + "```");
    assert "" + "```" + "sql" + (u + "```") == "```sql" + u + "```";
    ClosingFenceDropped(u);
  }

  /** A closing fence after backtick-free text is deleted. */
  lemma ClosingFenceDropped(u: string)
    requires NoBacktick(u)
    ensures StripFences(u + "```") == u
  {
    StripFencesKeepsPlainPrefix(u, "```");
    StripFencesBareStep("");
    assert "```" + "" == "```";
    assert u + "" == u;
  }

  lemma SqlFencedStripFences()
    ensures StripFences("```sql\nSELECT 1;\n```") == "\nSELECT 1;\n"
  {
    var u := "\nSELECT 1;\n";
    assert NoBacktick(u) by {
      forall i | 0 <= i < |u|
        ensures u[i] != '`'
      {
      }
    }
    SqlFencedBody(u);
    assert "```sql" + u + "```" == "```sql\nSELECT 1;\n```";
  }

  lemma SqlFencedTrimParens()
    ensures TrimParens("\nSELECT 1;\n") == "SELECT 1;"
  {
    var u := "\nSELECT 1;\n";
    StripAt(u, 1, |u| - 1, SpaceOrOpen, SpaceOrClose);
    assert u[1..|u| - 1] == "SELECT 1;";
  }

  lemma SqlFencedStripSemicolons()
    ensures StripSemicolons("SELECT 1;") == "SELECT 1"
  {
    var t := "SELECT 1;";
    forall q | 0 <= q < |t| - 1
      ensures !IsSemiTail(t[q..])
    {
      assert t[q..][0] == t[q];
    }
    StripSemicolonsAt(t, |t| - 1);
  }

  /** A statement between two bare fences loses both, unless it begins with
      `sql` in any letter case, which would make the opening fence a `sql`
      fence. */
  lemma BareFencedBody(u: string)
    requires NoBacktick(u) && !(|u| >= 3 && Lower(u[..3]) == "sql")
    ensures StripFences("```" + u + "```") == u
  {
    BodyThenFenceIsNotSql(u);
    StripFencesBareStep(u + "```");
    assert "```" + (u + "```") == "```" + u + "```";
    ClosingFenceDropped(u);
  }

  /** The closing fence keeps a short body from spelling `sql`. */
  lemma BodyThenFenceIsNotSql(u: string)
    requires !(|u| >= 3 && Lower(u[..3]) == "sql")
    ensures !(|u + "```"| >= 3 && Lower((u + "```")[..3]) == "sql")
  {
    var t := u + "```";
    if |u| >= 3 {
      assert t[..3] == u[..3];
    } else {
      assert t[|u|] == '`';
      assert Lower(t[..3])[|u|] == LowerChar('`');
    }
  }

  lemma BareFencedStripFences()
    ensures StripFences("```\nSELECT 1\n```") == "\nSELECT 1\n"
  {
    var u := "\nSELECT 1\n";
    assert NoBacktick(u) by {
      forall i | 0 <= i < |u|
        ensures u[i] != '`'
      {
      }
    }
    assert u[..3][0] == '\n';
    assert Lower(u[..3])[0] == '\n';
    BareFencedBody(u);
    assert "```" + u + "```" == "```\nSELECT 1\n```";
  }

  lemma BareFencedTrimParens()
    ensures TrimParens("\nSELECT 1\n") == "SELECT 1"
  {
    var u := "\nSELECT 1\n";
    StripAt(u, 1, |u| - 1, SpaceOrOpen, SpaceOrClose);
    assert u[1..|u| - 1] == "SELECT 1";
  }

  /** A backtick that starts no fence is kept, even when a fence follows. */
  lemma LoneBacktickKept()
    ensures StripFences("`x```") == "`x"
  {
    var s := "`x```";
    StripFencesStep(s);
    assert s[1..] == "x```";
    StripFencesStep("x```");
    assert "x```"[1..] == "```";
    ClosingFenceDropped("");
    assert "" + "```" == "```";
  }

  /** A body that starts with `SELECT` right after the fence is not mistaken
      for a `sql` fence. */
  lemma BareFencedSelect()
    ensures StripFences("```SELECT 1```") == "SELECT 1"
  {
    var u := "SELECT 1";
    assert NoBacktick(u) by {
      forall i | 0 <= i < |u|
        ensures u[i] != '`'
      {
      }
    }
    assert u[..3][1] == 'E';
    assert Lower(u[..3])[1] == 'e';
    BareFencedBody(u);
    assert "```" + u + "```" == "```SELECT 1```";
  }

  /** The common bare-fenced answer comes out as the bare statement. */
  lemma CleanStripsBareFence()
    ensures Clean("```\nSELECT 1\n```") == "SELECT 1"
  {
    BareFencedStripFences(); BareFencedTrimParens(); Select1StripSemicolons(); Select1Collapse(); Select1Trim();
  }

  /** A fenced answer with a trailing semicolon comes out bare. */
  lemma CleanStripsFenceAndSemicolon()
    ensures Clean("```sql\nSELECT 1;\n```") == "SELECT 1"
  {
    SqlFencedStripFences(); SqlFencedTrimParens(); SqlFencedStripSemicolons(); Select1Collapse(); Select1Trim();
  }
}

=== FILE: js_handler.dfy ===
/** `handleChat` of the Node.js service: natural-language question in,
    `{reply, data}` out, with the model service and the datastore supplied as
    pure functions. The result also records every prompt sent and every
    statement executed, in order, so call counts are their lengths. */
module JsHandler {
  import opened Wrappers
  import opened Chars
  import opened Sanitizer
  import opened Chat

  datatype Response = Response(reply: string, data: seq<Row>)

  datatype Run = Run(response: Response, prompts: seq<Prompt>, executed: seq<string>)

  /** `...?.parts?.[0]?.text?.trim()`: an absent text stays absent. */
  function ModelText(raw: Option<string>): (r: Option<string>)
    ensures r.None? <==> raw.None?
    ensures r.Some? ==> IsStripOf(raw.value, r.value, Space, Space)
    ensures r.Some? && |r.value| > 0 ==> !IsSpace(r.value[0]) && !IsSpace(r.value[|r.value| - 1])
  {
    match raw
    case None => None
    case Some(t) => Some(Trim(t))
  }

  /** The SQL the first answer turns into, when there is one. */
  function FirstSql(message: string, svc: Services): string {
    Clean(ModelText(svc.answer(SqlPrompt(message))).GetOr(""))
  }

  /** The retry candidate for a statement that returned no rows. */
  function Candidate(sql: string, svc: Services): Option<string> {
    ModelText(svc.answer(RetryPrompt(sql)))
  }

  /** The reply of the summary step of `handleChat`: the raw summary text when
      truthy, else the fallback; never empty, and never trimmed. */
  function SummaryReply(raw: Option<string>): (r: string)
    ensures |r| > 0
    ensures r == NoSummary || raw == Some(r)
  {
    if Truthy(raw) then raw.value else NoSummary
  }

  /** The summary step of `handleChat`: the summary prompt carries the final
      rows and query; the reply is the summary text when truthy (untrimmed),
      else the fallback; the data are exactly the rows summarised. */
  function Summarize(message: string, sql: string, rows: seq<Row>, svc: Services,
                     prompts: seq<Prompt>, executed: seq<string>): (run: Run)
    ensures run.response.data == rows
    ensures run.prompts == prompts + [SummaryPrompt(rows, sql, message)]
    ensures run.executed == executed
    ensures Truthy(svc.answer(SummaryPrompt(rows, sql, message))) ==>
      run.response.reply == svc.answer(SummaryPrompt(rows, sql, message)).value
    ensures !Truthy(svc.answer(SummaryPrompt(rows, sql, message))) ==> run.response.reply == NoSummary
  {
    var prompt := SummaryPrompt(rows, sql, message);
    Run(Response(SummaryReply(svc.answer(prompt)), rows), prompts + [prompt], executed)
  }

  /** `data` is non-empty exactly when the run ended in a summary, and then it
      holds the rows of the last statement executed and the summary saw them;
      conversely, when the last statement executed returned rows, they are
      returned. */
  predicate SummaryCarriesRows(message: string, svc: Services, run: Run) {
    && (run.response.data != [] <==> (|run.prompts| > 0 && Last(run.prompts).SummaryPrompt?))
    && (run.response.data != [] ==>
         && |run.executed| > 0
         && svc.exec(Last(run.executed)) == Rows(run.response.data)
         && Last(run.prompts) == SummaryPrompt(run.response.data, Last(run.executed), message)
         && run.response.reply == SummaryReply(svc.answer(Last(run.prompts))))
    && ((|run.executed| > 0 && svc.exec(Last(run.executed)).Rows?
         && |svc.exec(Last(run.executed)).rows| > 0) ==> run.response.data != [])
  }

  /** The accepted-candidate part of the retry branch of `handleChat`: the
      candidate is executed; its rows, when there are any, are summarised with
      it as the final query, and otherwise the reply is the fixed no-results
      text. */
  function RunCandidate(message: string, sql: string, retrySql: string, svc: Services): (run: Run)
    ensures run.executed == [sql, retrySql]
    ensures 2 <= |run.prompts| <= 3 && run.prompts[..2] == [SqlPrompt(message), RetryPrompt(sql)]
    ensures !(svc.exec(retrySql).Rows? && |svc.exec(retrySql).rows| > 0) ==>
      run.response == Response(NoResults, []) && |run.prompts| == 2
    ensures run.response.data == [] ==> run.response.reply == NoResults
    ensures SummaryCarriesRows(message, svc, run)
  {
    var prompts := [SqlPrompt(message), RetryPrompt(sql)];
    match svc.exec(retrySql)
    case Rows(retryData) =>
      if |retryData| > 0 then
        Summarize(message, retrySql, retryData, svc, prompts, [sql, retrySql])
      else
        Run(Response(NoResults, []), prompts, [sql, retrySql])
    case Failed(_) =>
      Run(Response(NoResults, []), prompts, [sql, retrySql])
  }

  /** The retry branch of `handleChat`, entered when `sql` ran and returned no
      rows: one retry prompt, at most one more execution, and either a summary
      of the new rows or the fixed no-results reply. */
  function Retry(message: string, sql: string, svc: Services): (run: Run)
    requires svc.exec(sql) == Rows([])
    ensures |run.prompts| >= 2 && run.prompts[..2] == [SqlPrompt(message), RetryPrompt(sql)]
    ensures |run.prompts| <= 3
    ensures 1 <= |run.executed| <= 2 && run.executed[0] == sql
    // The candidate is executed exactly when it is accepted, after the light cleanup.
    ensures |run.executed| == 2 <==> AcceptsCandidate(Candidate(sql, svc))
    ensures |run.executed| == 2 ==> run.executed[1] == LightClean(Candidate(sql, svc).value)
    ensures |run.executed| == 2 ==> StartsWithSelect(run.executed[1])
    // Rejected, failed or empty: the fixed reply, no data, no summary.
    ensures !(|run.executed| == 2 && svc.exec(run.executed[1]).Rows? && |svc.exec(run.executed[1]).rows| > 0) ==>
      run.response == Response(NoResults, []) && |run.prompts| == 2
    ensures run.response.data == [] ==> run.response.reply == NoResults
    ensures SummaryCarriesRows(message, svc, run)
  {
    var newSql := Candidate(sql, svc);
    if AcceptsCandidate(newSql) then
      LightCleanKeepsSelect(newSql.value);
      RunCandidate(message, sql, LightClean(newSql.value), svc)
    else
      Run(Response(NoResults, []), [SqlPrompt(message), RetryPrompt(sql)], [sql])
  }

  /** The execution, retry and summary steps of `handleChat`, for a statement
      that passed the gate. */
  function Execute(message: string, sql: string, svc: Services): (run: Run)
    ensures 1 <= |run.prompts| <= 3 && run.prompts[0] == SqlPrompt(message)
    ensures 1 <= |run.executed| <= 2 && run.executed[0] == sql
    // An execution error ends the request: no retry, no summary.
    ensures svc.exec(sql).Failed? ==>
      run == Run(Response(ExecErrorPrefix + svc.exec(sql).message, []), [SqlPrompt(message)], [sql])
    // The retry prompt is sent exactly when the execution succeeded with no rows.
    ensures (|run.prompts| >= 2 && run.prompts[1] == RetryPrompt(sql)) <==> svc.exec(sql) == Rows([])
    ensures svc.exec(sql) == Rows([]) ==> run == Retry(message, sql, svc)
    ensures svc.exec(sql).Rows? && |svc.exec(sql).rows| > 0 ==> |run.executed| == 1
    ensures |run.executed| == 2 ==> StartsWithSelect(run.executed[1])
    ensures run.response.data == [] ==>
      (run.response.reply == NoResults ||
       (svc.exec(sql).Failed? && run.response.reply == ExecErrorPrefix + svc.exec(sql).message))
    ensures svc.exec(sql).Failed? || SummaryCarriesRows(message, svc, run)
  {
    match svc.exec(sql)
    case Failed(error) =>
      Run(Response(ExecErrorPrefix + error, []), [SqlPrompt(message)], [sql])
    case Rows(data) =>
      if |data| > 0 then
        Summarize(message, sql, data, svc, [SqlPrompt(message)], [sql])
      else
        Retry(message, sql, svc)
  }

  /** The SELECT gate of `handleChat`: only SQL starting with `select` reaches
      the datastore. */
  function Gate(message: string, sql: string, svc: Services): (run: Run)
    ensures 1 <= |run.prompts| <= 3 && run.prompts[0] == SqlPrompt(message)
    ensures |run.executed| <= 2
    ensures |run.executed| > 0 <==> StartsWithSelect(sql)
    ensures !StartsWithSelect(sql) ==> run == Run(Response(OnlySelect, []), [SqlPrompt(message)], [])
    ensures |run.executed| > 0 ==> run == Execute(message, sql, svc) && run.executed[0] == sql
    ensures |run.executed| == 2 ==> StartsWithSelect(run.executed[1])
    ensures run.response.data == [] ==>
      (run.response.reply == OnlySelect || run.response.reply == NoResults ||
       (|run.executed| == 1 && svc.exec(sql).Failed? && run.response.reply == ExecErrorPrefix + svc.exec(sql).message))
    ensures (|run.executed| > 0 && svc.exec(sql).Failed?) || SummaryCarriesRows(message, svc, run)
  {
    if !StartsWithSelect(sql) then
      Run(Response(OnlySelect, []), [SqlPrompt(message)], [])
    else
      Execute(message, sql, svc)
  }

  /** `handleChat` after the first answer arrives: the falsy-answer reply, the
      cleanup, the SELECT gate and the execution. */
  function FromSqlAnswer(message: string, first: Option<string>, svc: Services): (run: Run)
    ensures 1 <= |run.prompts| <= 3 && run.prompts[0] == SqlPrompt(message)
    ensures |run.executed| <= 2
    ensures !Truthy(first) ==> run == Run(Response(NoSql, []), [SqlPrompt(message)], [])
    ensures |run.executed| > 0 <==> Truthy(first) && StartsWithSelect(Clean(first.value))
    ensures Truthy(first) && !StartsWithSelect(Clean(first.value)) ==>
      run == Run(Response(OnlySelect, []), [SqlPrompt(message)], [])
    ensures |run.executed| > 0 ==> run == Execute(message, Clean(first.value), svc)
    ensures |run.executed| > 0 ==> StartsWithSelect(run.executed[0])
    ensures |run.executed| == 2 ==> StartsWithSelect(run.executed[1])
    ensures run.response.data == [] ==>
      (IsFixedReply(run.response.reply) ||
       (|run.executed| == 1 && svc.exec(run.executed[0]).Failed? &&
        run.response.reply == ExecErrorPrefix + svc.exec(run.executed[0]).message))
    ensures (|run.executed| > 0 && svc.exec(run.executed[0]).Failed?) || SummaryCarriesRows(message, svc, run)
  {
    if !Truthy(first) then
      Run(Response(NoSql, []), [SqlPrompt(message)], [])
    else
      Gate(message, Clean(first.value), svc)
  }

  /** The whole request. */
  function HandleChat(message: string, svc: Services): (run: Run)
    // A falsy message is answered at once, with no calls at all.
    ensures |message| == 0 <==> run.prompts == []
    ensures |message| == 0 ==> run == Run(Response(SendMessage, []), [], [])
    // Call budget: at most three model calls and two executions.
    ensures |run.prompts| <= 3 && |run.executed| <= 2
    // No usable first answer: fixed reply, nothing executed.
    ensures |message| > 0 && !Truthy(ModelText(svc.answer(SqlPrompt(message)))) ==>
      run == Run(Response(NoSql, []), [SqlPrompt(message)], [])
    // The SELECT gate: the datastore sees the cleaned first answer only when it passes.
    ensures |run.executed| > 0 <==>
      |message| > 0 && Truthy(ModelText(svc.answer(SqlPrompt(message)))) && StartsWithSelect(FirstSql(message, svc))
    ensures |message| > 0 && Truthy(ModelText(svc.answer(SqlPrompt(message)))) && !StartsWithSelect(FirstSql(message, svc)) ==>
      run == Run(Response(OnlySelect, []), [SqlPrompt(message)], [])
    ensures |run.executed| > 0 ==> run == Execute(message, FirstSql(message, svc), svc)
    ensures |run.executed| > 0 ==> StartsWithSelect(run.executed[0])
    ensures |run.executed| == 2 ==> StartsWithSelect(run.executed[1])
    // Without data the reply is one of the fixed texts or the execution error.
    ensures run.response.data == [] ==>
      (IsFixedReply(run.response.reply) ||
       (|run.executed| == 1 && svc.exec(run.executed[0]).Failed? &&
        run.response.reply == ExecErrorPrefix + svc.exec(run.executed[0]).message))
    ensures (|run.executed| > 0 && svc.exec(run.executed[0]).Failed?) || SummaryCarriesRows(message, svc, run)
  {
    if |message| == 0 then
      Run(Response(SendMessage, []), [], [])
    else
      FromSqlAnswer(message, ModelText(svc.answer(SqlPrompt(message))), svc)
  }
}

=== FILE: py_handler.dfy ===
/** `handle_chat` of the Python service, with `call_gemini` reduced to its
    answer normalisation. The response's `data` is absent on every reply
    except the summary, as the Python dictionaries carry no `data` key there.
    As in the Node.js model, the run records the prompts sent and the
    statements executed. */
module PyHandler {
  import opened Wrappers
  import opened Chars
  import opened Sanitizer
  import opened Chat

  datatype Response = Response(reply: string, data: Option<seq<Row>>)

  datatype Run = Run(response: Response, prompts: seq<Prompt>, executed: seq<string>)

  /** `call_gemini` after the request: a missing or empty text gives None,
      any other text is stripped -- so whitespace alone gives an empty string. */
  function CallGemini(raw: Option<string>): (r: Option<string>)
    ensures r.None? <==> raw.None? || |raw.value| == 0
    ensures r.Some? ==> IsStripOf(raw.value, r.value, Space, Space)
    ensures r.Some? && |r.value| > 0 ==> !IsSpace(r.value[0]) && !IsSpace(r.value[|r.value| - 1])
  {
    if raw.Some? && |raw.value| > 0 then Some(Trim(raw.value)) else None
  }

  /** A present answer comes back empty exactly when it was all whitespace. */
  lemma CallGeminiEmptyOnBlank(raw: Option<string>)
    requires raw.Some? && |raw.value| > 0
    ensures |CallGemini(raw).value| == 0 <==> AllIn(raw.value, Space)
  {
    var r := CallGemini(raw).value;
    var s := raw.value;
    var i, j :| 0 <= i <= j <= |s| && r == s[i..j]
      && AllIn(s[..i], Space) && AllIn(s[j..], Space)
      && (|r| == 0 || (!InClass(r[0], Space) && !InClass(r[|r| - 1], Space)));
    if |r| == 0 {
      forall x | 0 <= x < |s|
        ensures InClass(s[x], Space)
      {
        if x < i {
          assert s[x] == s[..i][x];
        } else {
          assert s[x] == s[j..][x - j];
        }
      }
    } else {
      assert s[i] == r[0];
    }
  }

  /** The SQL the first answer turns into, when there is one. */
  function FirstSql(message: string, svc: Services): string {
    Clean(CallGemini(svc.answer(SqlPrompt(message))).GetOr(""))
  }

  /** The retry candidate for a statement that returned no rows. */
  function Candidate(sql: string, svc: Services): Option<string> {
    CallGemini(svc.answer(RetryPrompt(sql)))
  }

  /** The reply of the summary step of `handle_chat`: the stripped summary
      text when non-empty, else the fallback; never empty and never with outer
      whitespace. */
  function SummaryReply(raw: Option<string>): (r: string)
    ensures |r| > 0 && !IsSpace(r[0]) && !IsSpace(r[|r| - 1])
    ensures r == NoSummary || (raw.Some? && r == Trim(raw.value))
  {
    var text := CallGemini(raw);
    if Truthy(text) then text.value else NoSummary
  }

  /** The summary step of `handle_chat`: the summary prompt carries the final
      rows and query; the reply is the stripped summary when non-empty, else
      the fallback; the data are exactly the rows summarised. */
  function Summarize(message: string, sql: string, rows: seq<Row>, svc: Services,
                     prompts: seq<Prompt>, executed: seq<string>): (run: Run)
    ensures run.response.data == Some(rows)
    ensures run.prompts == prompts + [SummaryPrompt(rows, sql, message)]
    ensures run.executed == executed
    ensures Truthy(CallGemini(svc.answer(SummaryPrompt(rows, sql, message)))) ==>
      run.response.reply == Trim(svc.answer(SummaryPrompt(rows, sql, message)).value)
    ensures !Truthy(CallGemini(svc.answer(SummaryPrompt(rows, sql, message)))) ==>
      run.response.reply == NoSummary
  {
    var prompt := SummaryPrompt(rows, sql, message);
    Run(Response(SummaryReply(svc.answer(prompt)), Some(rows)), prompts + [prompt], executed)
  }

  /** `data` is present exactly when the run ended in a summary, and then it
      holds the non-empty rows of the last statement executed, which the
      summary saw; conversely, when the last statement executed returned rows,
      they are returned. */
  predicate SummaryCarriesRows(message: string, svc: Services, run: Run) {
    && (run.response.data.Some? <==> (|run.prompts| > 0 && Last(run.prompts).SummaryPrompt?))
    && (run.response.data.Some? ==>
         && |run.executed| > 0
         && |run.response.data.value| > 0
         && svc.exec(Last(run.executed)) == Rows(run.response.data.value)
         && Last(run.prompts) == SummaryPrompt(run.response.data.value, Last(run.executed), message)
         && run.response.reply == SummaryReply(svc.answer(Last(run.prompts))))
    && ((|run.executed| > 0 && svc.exec(Last(run.executed)).Rows?
         && |svc.exec(Last(run.executed)).rows| > 0) ==> run.response.data.Some?)
  }

  /** The accepted-candidate part of the retry branch of `handle_chat`: the
      candidate is executed; its rows, when there are any, are summarised with
      it as the final query, and otherwise the reply is the fixed no-results
      text. */
  function RunCandidate(message: string, sql: string, retrySql: string, svc: Services): (run: Run)
    ensures run.executed == [sql, retrySql]
    ensures 2 <= |run.prompts| <= 3 && run.prompts[..2] == [SqlPrompt(message), RetryPrompt(sql)]
    ensures !(svc.exec(retrySql).Rows? && |svc.exec(retrySql).rows| > 0) ==>
      run.response == Response(NoResults, None) && |run.prompts| == 2
    ensures run.response.data.None? ==> run.response.reply == NoResults
    ensures SummaryCarriesRows(message, svc, run)
  {
    var prompts := [SqlPrompt(message), RetryPrompt(sql)];
    match svc.exec(retrySql)
    case Rows(retryData) =>
      if |retryData| > 0 then
        Summarize(message, retrySql, retryData, svc, prompts, [sql, retrySql])
      else
        Run(Response(NoResults, None), prompts, [sql, retrySql])
    case Failed(_) =>
      Run(Response(NoResults, None), prompts, [sql, retrySql])
  }

  /** The retry branch of `handle_chat`, entered when `sql` ran and returned
      no rows: one retry prompt, at most one more execution, and either a
      summary of the new rows or the fixed no-results reply; a failing retry
      is caught. */
  function Retry(message: string, sql: string, svc: Services): (run: Run)
    requires svc.exec(sql) == Rows([])
    ensures |run.prompts| >= 2 && run.prompts[..2] == [SqlPrompt(message), RetryPrompt(sql)]
    ensures |run.prompts| <= 3
    ensures 1 <= |run.executed| <= 2 && run.executed[0] == sql
    // The candidate is executed exactly when it is accepted, after the light cleanup.
    ensures |run.executed| == 2 <==> AcceptsCandidate(Candidate(sql, svc))
    ensures |run.executed| == 2 ==> run.executed[1] == LightClean(Candidate(sql, svc).value)
    ensures |run.executed| == 2 ==> StartsWithSelect(run.executed[1])
    // Rejected, failed or empty: the fixed reply, no data, no summary.
    ensures !(|run.executed| == 2 && svc.exec(run.executed[1]).Rows? && |svc.exec(run.executed[1]).rows| > 0) ==>
      run.response == Response(NoResults, None) && |run.prompts| == 2
    ensures run.response.data.None? ==> run.response.reply == NoResults
    ensures SummaryCarriesRows(message, svc, run)
  {
    var newSql := Candidate(sql, svc);
    if AcceptsCandidate(newSql) then
      LightCleanKeepsSelect(newSql.value);
      RunCandidate(message, sql, LightClean(newSql.value), svc)
    else
      Run(Response(NoResults, None), [SqlPrompt(message), RetryPrompt(sql)], [sql])
  }

  /** The execution, retry and summary steps of `handle_chat`, for a statement
      that passed the gate; an exception from the first execution becomes the
      error reply. */
  function Execute(message: string, sql: string, svc: Services): (run: Run)
    ensures 1 <= |run.prompts| <= 3 && run.prompts[0] == SqlPrompt(message)
    ensures 1 <= |run.executed| <= 2 && run.executed[0] == sql
    // An execution error ends the request: no retry, no summary.
    ensures svc.exec(sql).Failed? ==>
      run == Run(Response(ExecErrorPrefix + svc.exec(sql).message, None), [SqlPrompt(message)], [sql])
    // The retry prompt is sent exactly when the execution succeeded with no rows.
    ensures (|run.prompts| >= 2 && run.prompts[1] == RetryPrompt(sql)) <==> svc.exec(sql) == Rows([])
    ensures svc.exec(sql) == Rows([]) ==> run == Retry(message, sql, svc)
    ensures svc.exec(sql).Rows? && |svc.exec(sql).rows| > 0 ==> |run.executed| == 1
    ensures |run.executed| == 2 ==> StartsWithSelect(run.executed[1])
    ensures run.response.data.None? ==>
      (run.response.reply == NoResults ||
       (svc.exec(sql).Failed? && run.response.reply == ExecErrorPrefix + svc.exec(sql).message))
    ensures svc.exec(sql).Failed? || SummaryCarriesRows(message, svc, run)
  {
    match svc.exec(sql)
    case Failed(error) =>
      Run(Response(ExecErrorPrefix + error, None), [SqlPrompt(message)], [sql])
    case Rows(data) =>
      if |data| > 0 then
        Summarize(message, sql, data, svc, [SqlPrompt(message)], [sql])
      else
        Retry(message, sql, svc)
  }

  /** The SELECT gate of `handle_chat`: only SQL starting with `select`
      reaches the datastore. */
  function Gate(message: string, sql: string, svc: Services): (run: Run)
    ensures 1 <= |run.prompts| <= 3 && run.prompts[0] == SqlPrompt(message)
    ensures |run.executed| <= 2
    ensures |run.executed| > 0 <==> StartsWithSelect(sql)
    ensures !StartsWithSelect(sql) ==> run == Run(Response(OnlySelect, None), [SqlPrompt(message)], [])
    ensures |run.executed| > 0 ==> run == Execute(message, sql, svc) && run.executed[0] == sql
    ensures |run.executed| == 2 ==> StartsWithSelect(run.executed[1])
    ensures run.response.data.None? ==>
      (run.response.reply == OnlySelect || run.response.reply == NoResults ||
       (|run.executed| == 1 && svc.exec(sql).Failed? && run.response.reply == ExecErrorPrefix + svc.exec(sql).message))
    ensures (|run.executed| > 0 && svc.exec(sql).Failed?) || SummaryCarriesRows(message, svc, run)
  {
    if !StartsWithSelect(sql) then
      Run(Response(OnlySelect, None), [SqlPrompt(message)], [])
    else
      Execute(message, sql, svc)
  }

  /** `handle_chat` after the first answer arrives: the falsy-answer reply, the
      cleanup, the SELECT gate and the execution. */
  function FromSqlAnswer(message: string, first: Option<string>, svc: Services): (run: Run)
    ensures 1 <= |run.prompts| <= 3 && run.prompts[0] == SqlPrompt(message)
    ensures |run.executed| <= 2
    ensures !Truthy(first) ==> run == Run(Response(NoSql, None), [SqlPrompt(message)], [])
    ensures |run.executed| > 0 <==> Truthy(first) && StartsWithSelect(Clean(first.value))
    ensures Truthy(first) && !StartsWithSelect(Clean(first.value)) ==>
      run == Run(Response(OnlySelect, None), [SqlPrompt(message)], [])
    ensures |run.executed| > 0 ==> run == Execute(message, Clean(first.value), svc)
    ensures |run.executed| > 0 ==> StartsWithSelect(run.executed[0])
    ensures |run.executed| == 2 ==> StartsWithSelect(run.executed[1])
    ensures run.response.data.None? ==>
      (IsFixedReply(run.response.reply) ||
       (|run.executed| == 1 && svc.exec(run.executed[0]).Failed? &&
        run.response.reply == ExecErrorPrefix + svc.exec(run.executed[0]).message))
    ensures (|run.executed| > 0 && svc.exec(run.executed[0]).Failed?) || SummaryCarriesRows(message, svc, run)
  {
    if !Truthy(first) then
      Run(Response(NoSql, None), [SqlPrompt(message)], [])
    else
      Gate(message, Clean(first.value), svc)
  }

  /** The whole request. */
  function HandleChat(message: string, svc: Services): (run: Run)
    // An empty message is answered at once, with no calls at all.
    ensures |message| == 0 <==> run.prompts == []
    ensures |message| == 0 ==> run == Run(Response(SendMessage, None), [], [])
    // Call budget: at most three model calls and two executions.
    ensures |run.prompts| <= 3 && |run.executed| <= 2
    // No usable first answer: fixed reply, nothing executed.
    ensures |message| > 0 && !Truthy(CallGemini(svc.answer(SqlPrompt(message)))) ==>
      run == Run(Response(NoSql, None), [SqlPrompt(message)], [])
    // The SELECT gate: the datastore sees the cleaned first answer only when it passes.
    ensures |run.executed| > 0 <==>
      |message| > 0 && Truthy(CallGemini(svc.answer(SqlPrompt(message)))) && StartsWithSelect(FirstSql(message, svc))
    ensures |message| > 0 && Truthy(CallGemini(svc.answer(SqlPrompt(message)))) && !StartsWithSelect(FirstSql(message, svc)) ==>
      run == Run(Response(OnlySelect, None), [SqlPrompt(message)], [])
    ensures |run.executed| > 0 ==> run == Execute(message, FirstSql(message, svc), svc)
    ensures |run.executed| > 0 ==> StartsWithSelect(run.executed[0])
    ensures |run.executed| == 2 ==> StartsWithSelect(run.executed[1])
    // Without data the reply is one of the fixed texts or the execution error.
    ensures run.response.data.None? ==>
      (IsFixedReply(run.response.reply) ||
       (|run.executed| == 1 && svc.exec(run.executed[0]).Failed? &&
        run.response.reply == ExecErrorPrefix + svc.exec(run.executed[0]).message))
    ensures (|run.executed| > 0 && svc.exec(run.executed[0]).Failed?) || SummaryCarriesRows(message, svc, run)
  {
    if |message| == 0 then
      Run(Response(SendMessage, None), [], [])
    else
      FromSqlAnswer(message, CallGemini(svc.answer(SqlPrompt(message))), svc)
  }
}

=== FILE: sanitizer.dfy ===
/** The SQL text cleanup applied to model output before the SELECT gate: five
    regular-expression rewrites applied in a fixed order, each written here as
    a pure function over strings, plus the lighter cleanup a retry candidate
    receives. */
module Sanitizer {
  import opened Chars

  // ---------------------------------------------------------------------
  // Step 1: /```sql|```/gi  ->  ""
  // ---------------------------------------------------------------------

  /** Three backticks start at position 0 of `s`. */
  predicate AtFence(s: string) {
    |s| >= 3 && s[0] == '`' && s[1] == '`' && s[2] == '`'
  }

  /** A fence followed by `sql` in any letter case starts at position 0. */
  predicate AtSqlFence(s: string) {
    AtFence(s) && |s| >= 6 && Lower(s[3..6]) == "sql"
  }

  /** No three consecutive backticks anywhere in `s`. */
  predicate FenceFree(s: string) {
    forall i :: 0 <= i < |s| ==> !AtFence(s[i..])
  }

  predicate NoBacktick(s: string) {
    forall i :: 0 <= i < |s| ==> s[i] != '`'
  }

  /** Global left-to-right replacement: at each position the longer
      alternative `sql` fence is tried first, then the bare fence; a match is
      deleted and scanning resumes after it. */
  function StripFences(s: string): (r: string)
    ensures |r| <= |s|
    ensures NoBacktick(s) ==> r == s
    decreases |s|
  {
    if AtSqlFence(s) then StripFences(s[6..])
    else if AtFence(s) then StripFences(s[3..])
    else if |s| == 0 then ""
    else
      assert NoBacktick(s) ==> NoBacktick(s[1..]);
      [s[0]] + StripFences(s[1..])
  }

  /** A suffix of a fence-free string is fence-free. */
  lemma FenceFreeSuffix(s: string, k: nat)
    requires FenceFree(s) && k <= |s|
    ensures FenceFree(s[k..])
  {
    forall i | 0 <= i < |s[k..]|
      ensures !AtFence(s[k..][i..])
    {
      assert s[k..][i..] == s[k + i..];
    }
  }

  /** Prepending a character to a fence-free string leaves it fence-free
      unless the three leading characters are backticks. */
  lemma FenceFreeCons(c: char, t: string)
    requires FenceFree(t)
    requires !AtFence([c] + t)
    ensures FenceFree([c] + t)
  {
    forall i | 0 <= i < |[c] + t|
      ensures !AtFence(([c] + t)[i..])
    {
      if i > 0 {
        assert ([c] + t)[i..] == t[i - 1..];
      }
    }
  }

  /** Away from a fence, step 1 keeps the first character and moves on. */
  lemma StripFencesStep(s: string)
    requires |s| > 0 && !AtFence(s)
    ensures StripFences(s) == [s[0]] + StripFences(s[1..])
  {
  }

  /** A character kept by step 1 never starts a fence with what follows it. */
  lemma StripFencesKeptHead(s: string)
    requires |s| > 0 && !AtFence(s)
    ensures !AtFence([s[0]] + StripFences(s[1..]))
  {
    var t := StripFences(s[1..]);
    if s[0] == '`' && |s| > 1 {
      if s[1] != '`' {
        StripFencesStep(s[1..]);
      } else if |s| == 2 {
        StripFencesStep(s[1..]);
        assert s[1..][1..] == [];
      } else {
        assert s[2] != '`';
        StripFencesStep(s[1..]);
        assert s[1..][1..] == s[2..];
        StripFencesStep(s[2..]);
        assert t[1] == s[2];
      }
    }
  }

  /** No fence survives step 1: the deletions never glue backticks into a new fence. */
  lemma {:induction false} StripFencesLeavesNoFence(s: string)
    ensures FenceFree(StripFences(s))
    decreases |s|
  {
    if AtSqlFence(s) {
      StripFencesLeavesNoFence(s[6..]);
    } else if AtFence(s) {
      StripFencesLeavesNoFence(s[3..]);
    } else if |s| > 0 {
      var t := StripFences(s[1..]);
      StripFencesLeavesNoFence(s[1..]);
      StripFencesKeptHead(s);
      FenceFreeCons(s[0], t);
    }
  }

  /** Fence-free text passes through step 1 unchanged. */
  lemma {:induction false} StripFencesKeepsFenceFree(s: string)
    requires FenceFree(s)
    ensures StripFences(s) == s
    decreases |s|
  {
    if |s| > 0 {
      assert !AtFence(s[0..]);
      assert s[0..] == s;
      FenceFreeSuffix(s, 1);
      StripFencesKeepsFenceFree(s[1..]);
    }
  }

  /** Step 1 is idempotent. */
  lemma StripFencesIdempotent(s: string)
    ensures StripFences(StripFences(s)) == StripFences(s)
  {
    StripFencesLeavesNoFence(s);
    StripFencesKeepsFenceFree(StripFences(s));
  }

  /** A backtick-free prefix passes through step 1 untouched. */
  lemma {:induction false} StripFencesKeepsPlainPrefix(u: string, v: string)
    requires NoBacktick(u)
    ensures StripFences(u + v) == u + StripFences(v)
    decreases |u|
  {
    if |u| > 0 {
      assert (u + v)[0] == u[0];
      assert (u + v)[1..] == u[1..] + v;
      StripFencesKeepsPlainPrefix(u[1..], v);
      assert u == [u[0]] + u[1..];
    } else {
      assert u + v == v;
    }
  }

  /** A `sql` fence, in any letter case, after backtick-free text is deleted
      whole: the longer alternative wins, and scanning resumes after it. */
  lemma StripFencesDropsSqlFence(u: string, w: string, v: string)
    requires NoBacktick(u) && |w| == 3 && Lower(w) == "sql"
    ensures StripFences(u + "```" + w + v) == u + StripFences(v)
  {
    var s := "```" + w + v;
    assert u + "```" + w + v == u + s;
    StripFencesKeepsPlainPrefix(u, s);
    assert s[3..6] == w && s[6..] == v;
  }

  /** A bare fence after backtick-free text is deleted alone when the next
      three characters do not spell `sql` in any letter case. */
  lemma StripFencesDropsBareFence(u: string, v: string)
    requires NoBacktick(u) && !(|v| >= 3 && Lower(v[..3]) == "sql")
    ensures StripFences(u + "```" + v) == u + StripFences(v)
  {
    assert u + "```" + v == u + ("```" + v);
    StripFencesKeepsPlainPrefix(u, "```" + v);
    StripFencesBareStep(v);
  }

  /** One step of the scan at a bare fence. */
  lemma StripFencesBareStep(v: string)
    requires !(|v| >= 3 && Lower(v[..3]) == "sql")
    ensures StripFences("```" + v) == StripFences(v)
  {
    var s := "```" + v;
    BareFenceIsNotSql(v);
    assert s[3..] == v;
  }

  lemma BareFenceIsNotSql(v: string)
    requires !(|v| >= 3 && Lower(v[..3]) == "sql")
    ensures AtFence("```" + v) && !AtSqlFence("```" + v)
  {
    var s := "```" + v;
    if |v| >= 3 {
      assert s[3..6] == v[..3];
    }
  }

  // ---------------------------------------------------------------------
  // Step 2: /^[\s(]+|[\s)]+$/g  ->  ""
  // ---------------------------------------------------------------------

  /** The first alternative can only match at position 0 and takes the whole
      leading run of whitespace and `(`; the second matches at the first
      position from which everything up to the end is whitespace or `)`. So
      the step is a strip with these two classes. */
  function TrimParens(s: string): (r: string)
    ensures IsStripOf(s, r, SpaceOrOpen, SpaceOrClose)
    ensures |r| > 0 ==> r[0] != '(' && !IsSpace(r[0])
    ensures |r| > 0 ==> r[|r| - 1] != ')' && !IsSpace(r[|r| - 1])
  {
    Strip(s, SpaceOrOpen, SpaceOrClose)
  }

  // ---------------------------------------------------------------------
  // Step 3: /;+\s*$/g  ->  ""
  // ---------------------------------------------------------------------

  /** `t` matches `;+\s*` as a whole. */
  predicate IsSemiTail(t: string) {
    && |t| > 0 && t[0] == ';'
    && (forall i :: 0 <= i < |t| ==> t[i] == ';' || IsSpace(t[i]))
    && (forall i, j :: 0 <= i < j < |t| && t[j] == ';' ==> t[i] == ';')
  }

  /** Deletes the leftmost match of `;+\s*$`: the contract says the result is
      a prefix, no match starts inside it, and what was cut is a match. */
  function StripSemicolons(s: string): (r: string)
    ensures r <= s
    ensures forall p :: 0 <= p < |r| ==> !IsSemiTail(s[p..])
    ensures r != s ==> IsSemiTail(s[|r|..])
  {
    var a := TrailStart(s, Space);
    var b := TrailStart(s[..a], Semicolon);
    assert forall x :: b <= x < a ==> s[x] == ';' by {
      forall x | b <= x < a
        ensures s[x] == ';'
      {
        assert s[..a][b..][x - b] == s[x];
      }
    }
    assert forall x :: a <= x < |s| ==> IsSpace(s[x]) by {
      forall x | a <= x < |s|
        ensures IsSpace(s[x])
      {
        assert s[a..][x - a] == s[x];
      }
    }
    NoSemiTailBefore(s, a, b);
    if b < a then
      assert IsSemiTail(s[b..]) by {
        var t := s[b..];
        forall i | 0 <= i < |t|
          ensures t[i] == ';' || IsSpace(t[i])
        {
          assert t[i] == s[b + i];
        }
        forall i, j | 0 <= i < j < |t| && t[j] == ';'
          ensures t[i] == ';'
        {
          assert t[j] == s[b + j] && t[i] == s[b + i];
        }
      }
      s[..b]
    else
      s
  }

  /** Helper for `StripSemicolons`: with `a` the start of the whitespace suffix
      and `b` the start of the `;` run before it, no match starts before `b`
      (or anywhere, when the run is empty). */
  lemma NoSemiTailBefore(s: string, a: nat, b: nat)
    requires b <= a <= |s|
    requires forall x :: b <= x < a ==> s[x] == ';'
    requires forall x :: a <= x < |s| ==> IsSpace(s[x])
    requires a == 0 || !IsSpace(s[a - 1])
    requires b == 0 || s[b - 1] != ';'
    ensures forall p :: 0 <= p < (if b < a then b else |s|) ==> !IsSemiTail(s[p..])
  {
    forall p | 0 <= p < (if b < a then b else |s|)
      ensures !IsSemiTail(s[p..])
    {
      var t := s[p..];
      if b < a {
        // s[b-1] is neither ';' nor followed only by whitespace.
        assert t[b - 1 - p] == s[b - 1];
        assert t[b - p] == s[b];
      } else if p >= a {
        assert t[0] == s[p];
      } else {
        assert t[a - 1 - p] == s[a - 1];
      }
    }
  }

  /** When `p` is where the leftmost match starts, step 3 cuts exactly there. */
  lemma StripSemicolonsAt(s: string, p: nat)
    requires p <= |s| && IsSemiTail(s[p..])
    requires forall q :: 0 <= q < p ==> !IsSemiTail(s[q..])
    ensures StripSemicolons(s) == s[..p]
  {
    var r := StripSemicolons(s);
    assert r == s[..|r|];
    assert s[|s|..] == [];
  }

  /** When no match exists, step 3 leaves the text alone. */
  lemma StripSemicolonsNone(s: string)
    requires forall q :: 0 <= q <= |s| ==> !IsSemiTail(s[q..])
    ensures StripSemicolons(s) == s
  {
  }

  /** Text without a semicolon passes through step 3 unchanged. */
  lemma StripSemicolonsNoSemicolon(s: string)
    requires forall i :: 0 <= i < |s| ==> s[i] != ';'
    ensures StripSemicolons(s) == s
  {
    forall q | 0 <= q <= |s|
      ensures !IsSemiTail(s[q..])
    {
      if q < |s| {
        assert s[q..][0] == s[q];
      }
    }
    StripSemicolonsNone(s);
  }

  // ---------------------------------------------------------------------
  // Step 4: /\s+/g  ->  " "
  // ---------------------------------------------------------------------

  /** Every whitespace character is a plain space and no two are adjacent. */
  predicate SingleSpaced(s: string) {
    && (forall i :: 0 <= i < |s| && IsSpace(s[i]) ==> s[i] == ' ')
    && (forall i :: 0 <= i < |s| - 1 ==> !(IsSpace(s[i]) && IsSpace(s[i + 1])))
  }

  /** Replaces each maximal whitespace run by one space. */
  function Collapse(s: string): (r: string)
    ensures |r| <= |s|
    ensures SingleSpaced(r)
    ensures |s| > 0 ==> |r| > 0 && (IsSpace(r[0]) <==> IsSpace(s[0]))
    ensures |s| > 0 && !IsSpace(s[0]) ==> r[0] == s[0]
    ensures |s| > 0 ==> (IsSpace(r[|r| - 1]) <==> IsSpace(s[|s| - 1]))
    decreases |s|
  {
    if |s| == 0 then ""
    else if IsSpace(s[0]) then
      var n := LeadLen(s, Space);
      assert s[..n][0] == s[0];
      " " + Collapse(s[n..])
    else
      [s[0]] + Collapse(s[1..])
  }

  /** An independent character-by-character reading of step 4: a whitespace
      character becomes a space, or disappears when the character before it
      (`afterSpace`) was whitespace too. */
  function CollapseRef(s: string, afterSpace: bool): string
    decreases |s|
  {
    if |s| == 0 then ""
    else if IsSpace(s[0]) then (if afterSpace then "" else " ") + CollapseRef(s[1..], true)
    else [s[0]] + CollapseRef(s[1..], false)
  }

  lemma AllInSlice(s: string, k: CharClass, i: nat, j: nat)
    requires AllIn(s, k) && i <= j <= |s|
    ensures AllIn(s[i..j], k)
  {
    forall x | 0 <= x < j - i
      ensures InClass(s[i..j][x], k)
    {
      assert s[i..j][x] == s[i + x];
    }
  }

  /** Whitespace right after whitespace contributes nothing to the reference reading. */
  lemma {:induction false} CollapseRefSkipsRun(s: string, n: nat)
    requires n <= |s| && AllIn(s[..n], Space)
    ensures CollapseRef(s, true) == CollapseRef(s[n..], true)
    decreases n
  {
    if n > 0 {
      assert s[..n][0] == s[0];
      AllInSlice(s[..n], Space, 1, n);
      assert s[1..][..n - 1] == s[..n][1..n];
      CollapseRefSkipsRun(s[1..], n - 1);
      assert s[1..][n - 1..] == s[n..];
    }
  }

  /** Step 4 agrees with the character-by-character reading on every input. */
  lemma {:induction false} CollapseMatchesRef(s: string)
    ensures Collapse(s) == CollapseRef(s, false)
    decreases |s|
  {
    if |s| > 0 {
      if IsSpace(s[0]) {
        var n := LeadLen(s, Space);
        assert s[..n][0] == s[0];
        AllInSlice(s[..n], Space, 1, n);
        assert s[1..][..n - 1] == s[..n][1..n];
        CollapseRefSkipsRun(s[1..], n - 1);
        assert s[1..][n - 1..] == s[n..];
        CollapseMatchesRef(s[n..]);
        if |s[n..]| > 0 {
          assert !IsSpace(s[n..][0]);
        }
      } else {
        CollapseMatchesRef(s[1..]);
      }
    }
  }

  lemma SingleSpacedTail(s: string)
    requires |s| > 0 && SingleSpaced(s)
    ensures SingleSpaced(s[1..])
  {
    forall i | 0 <= i < |s[1..]| - 1
      ensures !(IsSpace(s[1..][i]) && IsSpace(s[1..][i + 1]))
    {
      assert s[1..][i] == s[i + 1] && s[1..][i + 1] == s[i + 2];
    }
  }

  /** The reference reading leaves single-spaced text alone, provided a
      space does not directly follow a whitespace character. */
  lemma {:induction false} CollapseRefKeepsSingleSpaced(s: string, afterSpace: bool)
    requires SingleSpaced(s)
    requires afterSpace && |s| > 0 ==> !IsSpace(s[0])
    ensures CollapseRef(s, afterSpace) == s
    decreases |s|
  {
    if |s| > 0 {
      SingleSpacedTail(s);
      CollapseRefKeepsSingleSpaced(s[1..], IsSpace(s[0]));
      assert s == [s[0]] + s[1..];
    }
  }

  /** Single-spaced text passes through step 4 unchanged. */
  lemma CollapseKeepsSingleSpaced(s: string)
    requires SingleSpaced(s)
    ensures Collapse(s) == s
  {
    CollapseMatchesRef(s);
    CollapseRefKeepsSingleSpaced(s, false);
  }

  /** Step 4 is idempotent. */
  lemma CollapseIdempotent(s: string)
    ensures Collapse(Collapse(s)) == Collapse(s)
  {
    CollapseKeepsSingleSpaced(Collapse(s));
  }

  /** A non-whitespace character kept by step 4 never starts a fence with what follows it. */
  lemma CollapseKeptHead(s: string)
    requires |s| > 0 && !IsSpace(s[0]) && !AtFence(s)
    ensures !AtFence([s[0]] + Collapse(s[1..]))
  {
    var t := Collapse(s[1..]);
    if s[0] == '`' && |s| > 1 && s[1] == '`' {
      assert t == [s[1]] + Collapse(s[1..][1..]);
      assert s[1..][1..] == s[2..];
      if |s| > 2 {
        assert s[2] != '`';
        assert t[1] == Collapse(s[2..])[0];
      }
    }
  }

  /** Step 4 never creates a fence: it only turns whitespace into spaces. */
  lemma {:induction false} CollapseKeepsFenceFree(s: string)
    requires FenceFree(s)
    ensures FenceFree(Collapse(s))
    decreases |s|
  {
    if |s| > 0 {
      if IsSpace(s[0]) {
        var n := LeadLen(s, Space);
        assert s[..n][0] == s[0];
        FenceFreeSuffix(s, n);
        CollapseKeepsFenceFree(s[n..]);
        FenceFreeCons(' ', Collapse(s[n..]));
      } else {
        FenceFreeSuffix(s, 1);
        CollapseKeepsFenceFree(s[1..]);
        var t := Collapse(s[1..]);
        assert !AtFence(s[0..]) && s[0..] == s;
        CollapseKeptHead(s);
        FenceFreeCons(s[0], t);
      }
    }
  }

  /** A slice of a fence-free string is fence-free. */
  lemma FenceFreeSlice(s: string, i: nat, j: nat)
    requires FenceFree(s) && i <= j <= |s|
    ensures FenceFree(s[i..j])
  {
    forall k | 0 <= k < |s[i..j]|
      ensures !AtFence(s[i..j][k..])
    {
      assert !AtFence(s[i + k..]);
      if |s[i..j][k..]| >= 3 {
        assert s[i..j][k..][..3] == s[i + k..][..3];
      }
    }
  }

  /** A string that satisfies `IsStripOf` is a slice of the original. */
  lemma StripIsSlice(s: string, r: string, lead: CharClass, trail: CharClass)
    requires IsStripOf(s, r, lead, trail)
    ensures exists i, j :: 0 <= i <= j <= |s| && r == s[i..j]
  {
  }

  // ---------------------------------------------------------------------
  // The whole chain, and the lighter cleanup of a retry candidate
  // ---------------------------------------------------------------------

  /** Steps 1-5 in the source's order; step 5 is `trim`. */
  function Clean(raw: string): (sql: string)
    ensures |sql| <= |raw|
    ensures |sql| > 0 ==> !IsSpace(sql[0]) && !IsSpace(sql[|sql| - 1])
    ensures |sql| > 0 ==> sql[0] != '('
    ensures SingleSpaced(sql)
  {
    var s1 := StripFences(raw);
    var s2 := TrimParens(s1);
    var s3 := StripSemicolons(s2);
    var s4 := Collapse(s3);
    var s5 := Trim(s4);
    assert |s3| > 0 ==> s3[0] == s2[0];
    TrimKeepsHead(s4);
    TrimKeepsSingleSpaced(s4);
    s5
  }

  /** Trimming a single-spaced string leaves it single-spaced. */
  lemma TrimKeepsSingleSpaced(s: string)
    requires SingleSpaced(s)
    ensures SingleSpaced(Trim(s))
  {
    var r := Trim(s);
    var i, j :| 0 <= i <= j <= |s| && r == s[i..j];
    forall k | 0 <= k < |r| - 1
      ensures !(IsSpace(r[k]) && IsSpace(r[k + 1]))
    {
      assert r[k] == s[i + k] && r[k + 1] == s[i + k + 1];
    }
    forall k | 0 <= k < |r| && IsSpace(r[k])
      ensures r[k] == ' '
    {
      assert r[k] == s[i + k];
    }
  }

  /** No code fence survives the cleanup. */
  lemma CleanRemovesFences(raw: string)
    ensures FenceFree(Clean(raw))
  {
    var s1 := StripFences(raw);
    StripFencesLeavesNoFence(raw);
    var s2 := TrimParens(s1);
    StripKeepsFenceFree(s1, SpaceOrOpen, SpaceOrClose);
    var s3 := StripSemicolons(s2);
    StripSemicolonsKeepsFenceFree(s2);
    CollapseKeepsFenceFree(s3);
    StripKeepsFenceFree(Collapse(s3), Space, Space);
  }

  lemma StripKeepsFenceFree(s: string, lead: CharClass, trail: CharClass)
    requires FenceFree(s)
    ensures FenceFree(Strip(s, lead, trail))
  {
    StripIsSlice(s, Strip(s, lead, trail), lead, trail);
    var i, j :| 0 <= i <= j <= |s| && Strip(s, lead, trail) == s[i..j];
    FenceFreeSlice(s, i, j);
  }

  lemma StripSemicolonsKeepsFenceFree(s: string)
    requires FenceFree(s)
    ensures FenceFree(StripSemicolons(s))
  {
    var r := StripSemicolons(s);
    assert r == s[0..|r|];
    FenceFreeSlice(s, 0, |r|);
  }

  /** The cleanup of an accepted retry candidate: fences, then the trailing
      `;` run, then `trim` -- without the parenthesis or whitespace steps. */
  function LightClean(candidate: string): (sql: string)
    ensures |sql| > 0 ==> !IsSpace(sql[0]) && !IsSpace(sql[|sql| - 1])
    ensures |sql| <= |candidate|
  {
    Trim(StripSemicolons(StripFences(candidate)))
  }

  /** The six characters of a `select` prefix are letters. */
  lemma SelectIsLetters(u: string)
    requires |u| == 6 && Lower(u) == "select"
    ensures forall i :: 0 <= i < 6 ==> u[i] != '`' && u[i] != ';' && !IsSpace(u[i])
  {
    forall i | 0 <= i < 6
      ensures u[i] != '`' && u[i] != ';' && !IsSpace(u[i])
    {
      assert LowerChar(u[i]) == "select"[i];
    }
  }

  /** Step 3 cannot cut into a prefix that holds no `;`. */
  lemma StripSemicolonsKeepsPrefix(s: string, k: nat)
    requires k <= |s|
    requires forall i :: 0 <= i < k ==> s[i] != ';'
    ensures |StripSemicolons(s)| >= k
  {
    var r := StripSemicolons(s);
    assert r != s ==> s[|r|..][0] == ';';
  }

  /** `trim` cannot cut into a prefix that holds no whitespace. */
  lemma TrimKeepsPlainPrefix(s: string, k: nat)
    requires 0 < k <= |s|
    requires forall i :: 0 <= i < k ==> !IsSpace(s[i])
    ensures |Trim(s)| >= k && Trim(s)[..k] == s[..k]
  {
    LeadLenIs(s, Space, 0);
    var m := TrailStart(s[0..], Space);
    assert s[0..] == s;
    forall x | m <= x < |s|
      ensures IsSpace(s[x])
    {
      assert s[m..][x - m] == s[x];
    }
    assert !IsSpace(s[k - 1]);
  }

  /** `trim` keeps a first character that is not whitespace. */
  lemma TrimKeepsHead(s: string)
    ensures |s| > 0 && !IsSpace(s[0]) ==> |Trim(s)| > 0 && Trim(s)[0] == s[0]
  {
    if |s| > 0 && !IsSpace(s[0]) {
      TrimKeepsPlainPrefix(s, 1);
    }
  }

  /** A candidate that passed the SELECT test still starts with `select`
      after its light cleanup, so the retry never executes anything else. */
  lemma LightCleanKeepsSelect(candidate: string)
    requires StartsWithSelect(candidate)
    ensures StartsWithSelect(LightClean(candidate))
  {
    var u := candidate[..6];
    var v := candidate[6..];
    SelectIsLetters(u);
    assert candidate == u + v;
    StripFencesKeepsPlainPrefix(u, v);
    var s1 := StripFences(candidate);
    assert s1[..6] == u;
    StripSemicolonsKeepsPrefix(s1, 6);
    var s2 := StripSemicolons(s1);
    assert s2[..6] == u;
    TrimKeepsPlainPrefix(s2, 6);
  }
}

=== FILE: wrappers.dfy ===
/** Optional values: a model answer that may be absent. */
module Wrappers {

  datatype Option<+T> = None | Some(value: T) {

    /** The model's text when it gave one, otherwise the fallback `default`. */
    function GetOr(default: T): T {
      match this
      case Some(v) => v
      case None => default
    }
  }
}
